=== FILE: README.md ===
# Landing-page logic of a music-promotion site, in Dafny

The site is a single React landing page. Almost all of it is presentation, but
four components hold small pieces of deterministic state logic, and this
project models those four and proves what they promise:

- **ROI calculator** (`roi_calculator.dfy`, module `RoiCalculator`). It has:
  - a genre-to-rate table with a fallback of 15;
  - the split of placement streams into real fans and bot plays;
  - the 3.2x projection of the product's own strategy;
  - savings against the 299 plan fee;
  - the ROI percentage, which is 0 unless switching saves money;
  - the two cost-per-fan figures and the progress-bar width;
  - the form's minimum bounds (spend at least 100, streams at least 1,000);
  - the `isCalculating` / `showResults` flags driven by the submit button.

  `Math.round` is modelled exactly, as the nearest integer with halves
  rounded up. `RoundHundredths` and `RoundTenths` reduce both roundings to
  integer arithmetic: real fans are `(streams * rate + 50) / 100` and the
  projection is `(realFans * 32 + 5) / 10`.
- **Testimonial carousel** (`testimonials.dfy`, module `Testimonials`). The
  shown index moves modulo the three testimonials under next, previous, the
  dot buttons and auto-rotation. A direction flag picks the side the new card
  slides in from and the side the old one leaves by.
- **FAQ accordion** (`accordion.dfy`, module `Accordion`). One optional index
  holds the open item, and a header press toggles it. So at most one item is
  ever open.
- **Email signup** (`cta_section.dfy`, module `CtaSection`). The field is
  required, then checked against the case-insensitive pattern
  `^[A-Z0-9._%+-]+@[A-Z0-9.-]+\.[A-Z]{2,}$`. Each rule has its own message.
  A success flag replaces the form once the simulated submission resolves.
  After a rejected submit, every edit re-validates the field and updates the
  message, as react-hook-form does by default.
  - `MatchesPattern` is the pattern read as "some split `L@D.T` exists".
  - `IsValidEmail` computes the split at the first `@` and the last `.`.
  - `AcceptIffPattern` proves the two agree on every string.

`wrappers.dfy` holds the shared `Option` and `Result` types.

Timers and clicks are not modelled as scheduling. Each becomes an explicit
event of a pure step function:

- the 1.5-second calculation delay is `CalculationDone`;
- the 1.5-second signup delay is `SubmissionResolved`;
- the 8-second rotation interval is `AutoRotate`.

The real-fan count is a rounding of `streams * rate / 100`, not its floor.
With the default inputs both give 1,200.

## Model

| member | source | states |
|---|---|---|
| RoiCalculator.ParseGenre | src/components/sections/RoiCalculator.tsx:161-171 | a string read as a genre is exactly that genre's option value |
| RoiCalculator.ParseOptionValue | src/components/sections/RoiCalculator.tsx:165-170 | every option of the genre select reads back as its own genre |
| RoiCalculator.TableKeysAreOptionValues | src/components/sections/RoiCalculator.tsx:81-88 | the rate table has an entry for exactly the six option values, so the fallback is reached only for strings the select never produces |
| RoiCalculator.RealFanPercentage | src/components/sections/RoiCalculator.tsx:80-91 | pop 12, hip-hop 14, electronic 16, rock 18, indie 22, other 15; any string that is not an option value gets 15; every rate lies in 12..22 |
| RoiCalculator.Round | src/components/sections/RoiCalculator.tsx:48 | `Math.round` yields the integer n with n - 1/2 <= x < n + 1/2 (nearest, halves up) |
| RoiCalculator.RoundUnique | src/components/sections/RoiCalculator.tsx:53 | only one integer satisfies the rounding window, so the rounded value is determined |
| RoiCalculator.RoundHundredths | src/components/sections/RoiCalculator.tsx:48 | rounding a/100 equals the integer (a + 50) / 100 |
| RoiCalculator.RoundTenths | src/components/sections/RoiCalculator.tsx:53 | rounding a/10 equals the integer (a + 5) / 10 |
| RoiCalculator.RealFans | src/components/sections/RoiCalculator.tsx:47-48 | real fans are (streams * rate + 50) / 100; for non-negative streams they lie in 0..streams; from 1,000 streams on there are at least 120 |
| RoiCalculator.Projected | src/components/sections/RoiCalculator.tsx:53-54 | the projection is (realFans * 32 + 5) / 10; never below a non-negative real-fan count, strictly above a positive one, and at most 4 times it |
| RoiCalculator.ProjectionHasNoTie | src/components/sections/RoiCalculator.tsx:53 | realFans * 3.2 is never an exact half, so no rounding tie arises in the projection |
| RoiCalculator.Roi | src/components/sections/RoiCalculator.tsx:57-58 | ROI is 0 when spend <= 299; otherwise ROI * spend == (projected - realFans) * 100; it is non-negative and positive exactly when there are savings and a gain |
| RoiCalculator.Recalculate | src/components/sections/RoiCalculator.tsx:45-67 | realFans + botPlays == streams; savings == spend - 299 (possibly negative); closed forms of both roundings; 0 <= realFans <= streams; projection >= realFans; ROI 0 without savings, otherwise ROI * spend == (projection - realFans) * 100; non-negative, and positive iff spend > 299 and realFans > 0 |
| RoiCalculator.CostPerFan | src/components/sections/RoiCalculator.tsx:215-218 | the per-fan cost is defined iff the fan count is non-zero, and then cost-per-fan times fans equals the cost |
| RoiCalculator.CurrentCostPerFan | src/components/sections/RoiCalculator.tsx:217 | the current strategy's cost per real fan is defined iff there are real fans, and times them gives the current spend |
| RoiCalculator.ProjectedCostPerFan | src/components/sections/RoiCalculator.tsx:237 | the product's cost per fan is defined iff the projection is non-zero, and times it gives the 299 fee |
| RoiCalculator.DisplayedRoi | src/components/sections/RoiCalculator.tsx:247 | the printed ROI is the integer within one half of the ROI (halves up), non-negative for a non-negative ROI |
| RoiCalculator.ErrorMessage | src/components/sections/RoiCalculator.tsx:134-154 | the spend and streams fields each have their own inline message; the genre select has none |
| RoiCalculator.ProgressWidth | src/components/sections/RoiCalculator.tsx:253 | the bar width is the ROI itself below 100 and exactly 100 from 100 on, so it never exceeds 100 and is non-negative for a non-negative ROI |
| RoiCalculator.ProgressWidthMonotone | src/components/sections/RoiCalculator.tsx:253 | a larger ROI never draws a shorter bar; all ROIs from 100 on draw the same full bar |
| RoiCalculator.DefaultScenario | src/components/sections/RoiCalculator.tsx:23-27 | the defaults (500, 10000, pop) give 1200 real fans, 8800 bot plays, 3840 projected, savings 201, ROI 528, displayed as 528, bar full |
| RoiCalculator.SmallIndieScenario | src/components/sections/RoiCalculator.tsx:47-58 | (100, 1000, indie) gives 220, 780, 704, savings -199 and ROI 0 |
| RoiCalculator.HalfPercentScenario | src/components/sections/RoiCalculator.tsx:57-58 | (320, 1238, pop) has an ROI of exactly 102.5, which the model prints as 103 |
| RoiCalculator.ValidateForm | src/components/sections/RoiCalculator.tsx:130-162 | a submission is accepted iff spend is present and >= 100, streams present and >= 1000, and a genre is chosen; otherwise exactly the failing fields are reported |
| RoiCalculator.FormBoundsKeepCostsDefined | src/components/sections/RoiCalculator.tsx:130-147 | any accepted submission yields at least 120 real fans and a projection above them, so both cost-per-fan divisions are defined and the current one is positive |
| RoiCalculator.ViewStep | src/components/sections/RoiCalculator.tsx:69-77 | from an idle button a submit starts the calculation iff the form is valid, and never touches the results flag; a submit while calculating changes nothing, as the button is disabled then; the end of the delay turns a pending calculation into shown results and is ignored otherwise; results once shown stay shown and appear only that way |
| RoiCalculator.ValidSubmitShowsResults | src/components/sections/RoiCalculator.tsx:69-76 | a valid submit followed by the end of the delay shows the results with the button enabled again |
| RoiCalculator.RunInvariant | src/components/sections/RoiCalculator.tsx:69-77 | from an idle, hidden view, any later calculating or shown state is preceded by a valid submission |
| RoiCalculator.ResultsFollowValidSubmit | src/components/sections/RoiCalculator.tsx:186 | from the initial view the results panel replaces the placeholder only after a valid submission |
| RoiCalculator.ResultsStayShown | src/components/sections/RoiCalculator.tsx:73-76 | after any events, a shown results panel is still shown |
| Testimonials.CountIsThree | src/components/sections/Testimonials.tsx:22-62 | the carousel cycles through three testimonials |
| Testimonials.Next | src/components/sections/Testimonials.tsx:73-76 | next sets direction 1 and moves one card forward, from the last card to the first; the index stays in range |
| Testimonials.Prev | src/components/sections/Testimonials.tsx:78-81 | previous sets direction -1 and moves one card back, from the first card to the last; the index stays in range |
| Testimonials.DotClick | src/components/sections/Testimonials.tsx:206-209 | a dot click shows that card; the direction is 1 iff the dot lies after the current card, else -1 (also for the current dot) |
| Testimonials.Step | src/components/sections/Testimonials.tsx:73-92 | next and auto-rotation set direction 1 and move one card forward, previous sets -1 and moves one back, a dot shows its card and slides forward iff it lies after the current one; every event leads to a valid state |
| Testimonials.AutoRotateIsNext | src/components/sections/Testimonials.tsx:84-92 | the rotation timer has exactly the effect of a click on next |
| Testimonials.RunStaysValid | src/components/sections/Testimonials.tsx:70-92 | the simple invariant carried along any sequence of clicks and rotations: the index stays in range and the direction in {-1, 0, 1} |
| Testimonials.RunMovesByNet | src/components/sections/Testimonials.tsx:73-81 | without dot clicks, the shown card is the start moved by (nexts and rotations minus previous clicks) modulo 3, in any order |
| Testimonials.Current | src/components/sections/Testimonials.tsx:152-192 | the card shows the testimonial at the active index: the list entry whose id is the index plus one |
| Testimonials.PrevUndoesNext | src/components/sections/Testimonials.tsx:75-80 | previous after next, and next after previous, give back the card shown |
| Testimonials.AdvanceMovesForward | src/components/sections/Testimonials.tsx:75 | k presses of next move the index k places forward modulo 3 |
| Testimonials.FullCycleReturns | src/components/sections/Testimonials.tsx:75 | three presses of next return to the starting card |
| Testimonials.EnterX | src/components/sections/Testimonials.tsx:95-98 | the incoming card starts at 1000 iff the direction is positive, else at -1000 |
| Testimonials.ExitX | src/components/sections/Testimonials.tsx:103-106 | the outgoing card leaves to 1000 iff the direction is negative, else to -1000 |
| Testimonials.SlidesAreOpposite | src/components/sections/Testimonials.tsx:94-107 | for direction 1 or -1 the enter offset is the negated exit offset; for 0 both are -1000 |
| Testimonials.MoveSides | src/components/sections/Testimonials.tsx:73-106 | after next the card enters from the right and leaves left; after previous the reverse |
| Testimonials.HighlightedDots | src/components/sections/Testimonials.tsx:210-212 | in a valid state exactly the dot of the shown card is highlighted |
| Testimonials.InitialState | src/components/sections/Testimonials.tsx:70-71 | the carousel starts valid on the first card with direction 0 and only dot 0 highlighted |
| Accordion.Toggle | src/components/ui/Accordion.tsx:57-59 | pressing item i flips whether i is open, and afterwards no other item is open |
| Accordion.IsOpen | src/components/ui/Accordion.tsx:68 | item k is drawn open exactly when the open index is k |
| Accordion.InitialFirstOpen | src/components/ui/Accordion.tsx:55 | the page loads with the first item open and all others closed |
| Accordion.OpenItems | src/components/ui/Accordion.tsx:63-68 | at most one item is drawn open: the open index if it names an item, otherwise none |
| Accordion.AtMostOneOpen | src/components/ui/Accordion.tsx:68 | two open items are the same item |
| Accordion.ToggleTwiceRestores | src/components/ui/Accordion.tsx:57-59 | pressing the same header twice restores a closed state or the state where that item was open |
| Accordion.ToggleTwiceClosesOther | src/components/ui/Accordion.tsx:57-59 | if another item j was open, pressing i twice leaves everything closed, so j is not reopened |
| Accordion.OpenItemWasPressedLast | src/components/ui/Accordion.tsx:57-69 | after any presses, an open item is the one pressed last |
| Accordion.RunKeepsIndexInRange | src/components/ui/Accordion.tsx:55-69 | presses on existing items keep the open index naming an existing item |
| CtaSection.Canonical | src/components/sections/CtaSection.tsx:84 | under the `i` flag a lower-case ASCII letter compares as its own upper-case form (32 code points lower); upper-case letters and every other character compare as themselves |
| CtaSection.LowerCase | src/components/sections/CtaSection.tsx:84 | lower-casing a character keeps its case-insensitive form |
| CtaSection.IndexOf | src/components/sections/CtaSection.tsx:84 | the first occurrence of a character, or none when it is absent |
| CtaSection.LastIndexOf | src/components/sections/CtaSection.tsx:84 | the last occurrence of a character, or none when it is absent |
| CtaSection.IsValidEmail | src/components/sections/CtaSection.tsx:84 | the computed pattern test; an accepted address is at least six characters, contains `@`, starts with a local-part character and ends in a letter |
| CtaSection.MatchesPattern | src/components/sections/CtaSection.tsx:84 | the regular expression, anchored at both ends, as "some split `L@D.T` fits the three classes"; a match is at least six characters and contains `@` and `.` |
| CtaSection.SplitIsDetermined | src/components/sections/CtaSection.tsx:84 | any split that fits the pattern is at the first `@` and the last `.` |
| CtaSection.AcceptIffPattern | src/components/sections/CtaSection.tsx:84 | the computed test accepts a string iff the pattern's existential split exists |
| CtaSection.SplitIsUnique | src/components/sections/CtaSection.tsx:84 | a string matches the pattern in at most one way |
| CtaSection.AcceptedHasOneAt | src/components/sections/CtaSection.tsx:84 | an accepted address contains exactly one `@` |
| CtaSection.AcceptedTldFollowsLastDot | src/components/sections/CtaSection.tsx:84 | the top-level domain of an accepted address is the text after its last `.`, at least two letters |
| CtaSection.SliceUpToCase | src/components/sections/CtaSection.tsx:84 | slices of strings equal up to case are equal up to case |
| CtaSection.ClassesUpToCase | src/components/sections/CtaSection.tsx:84 | the three character classes do not see letter case |
| CtaSection.SplitUpToCase | src/components/sections/CtaSection.tsx:84 | a fitting split stays fitting when letter case changes |
| CtaSection.CaseInsensitive | src/components/sections/CtaSection.tsx:84 | strings equal up to ASCII case are both accepted or both rejected |
| CtaSection.UpperCaseString | src/components/sections/CtaSection.tsx:84 | upper-casing keeps a string equal up to case and leaves no lower-case letter |
| CtaSection.LowerCaseString | src/components/sections/CtaSection.tsx:84 | lower-casing keeps a string equal up to case and leaves no upper-case letter |
| CtaSection.CaseChangesKeepVerdict | src/components/sections/CtaSection.tsx:84 | upper- and lower-casing an address never changes the verdict |
| CtaSection.ValidateEmail | src/components/sections/CtaSection.tsx:81-87 | empty input fails with "Email is required"; non-empty input that misses the pattern fails with "Invalid email address"; success iff the pattern matches, returning the input |
| CtaSection.Samples | src/components/sections/CtaSection.tsx:84-85 | `fan@band.io` is accepted; `fan@band.i` is rejected with the pattern message |
| CtaSection.FieldMessage | src/components/sections/CtaSection.tsx:81-92 | the message under the field: none iff the address matches, "Email is required" for empty input, "Invalid email address" otherwise |
| CtaSection.InitialSignupState | src/components/sections/CtaSection.tsx:19-20 | the form starts drawn, with nothing pending, no message, and edits not yet validated |
| CtaSection.FormShown | src/components/sections/CtaSection.tsx:71 | the form is drawn exactly while the success flag is unset |
| CtaSection.SignupStep | src/components/sections/CtaSection.tsx:19-30 | from an idle form a submit starts the submission iff the address matches; a matching one clears the message, a rejected one records the attempt and shows the rule's message; a submit while pending or after success, and a resolution with nothing pending, change nothing; a pending submission resolves into success; edits re-validate only after an attempt, and the record of an attempt is never cleared; success is never cleared and is set only by a resolving submission |
| CtaSection.ValidSubmitSucceeds | src/components/sections/CtaSection.tsx:22-30 | a matching address followed by the end of the delay sets the success flag and hides the form |
| CtaSection.ClearingAfterRejectedSubmit | src/components/sections/CtaSection.tsx:81-92 | after a rejected submit, clearing the field shows "Email is required" without another submit |
| CtaSection.EditsRevalidate | src/components/sections/CtaSection.tsx:19-92 | once a submit was attempted, after any run of edits the message is the one the last text gives, and the attempt stays recorded |
| CtaSection.RejectedSubmitThenEdits | src/components/sections/CtaSection.tsx:19-92 | a rejected submit followed by any edits shows the message for the last text typed |
| CtaSection.SuccessPersists | src/components/sections/CtaSection.tsx:71 | once set, the success flag stays set and the form is never drawn again |
| CtaSection.BusyNeedsValidSubmit | src/components/sections/CtaSection.tsx:22-30 | from an idle state, a later pending or successful state is preceded by a submitted address that matches |
| CtaSection.SuccessNeedsValidSubmit | src/components/sections/CtaSection.tsx:20-26 | the success flag is set only after a matching address was submitted |

## Left out

- Rendering, JSX markup, styling and the framer-motion and intersection-observer animations are not modelled. This covers the other sections, the layout, the header, the animated counter and the canvas hero. They hold no state logic beyond drawing data.
- Timer scheduling is not modelled: the 1.5-second delays and the 8-second rotation interval. Only the state each timer sets is modelled, as an explicit event.
- Auto-rotation starts only once the carousel has first scrolled into view, and the interval restarts whenever the card changes. Neither is modelled. The in-view flag is set once and never cleared, so rotation never pauses afterwards. `AutoRotate` may happen at any time and has the effect of next.
- Recalculate: computes in exact integers and reals, while the source computes `streams * (rate / 100)`, the 3.2 factor and the ROI in IEEE-754 doubles. The two agree only while the figures are well below 2^53 (about 9 × 10^15). The streams field has no maximum. Above that size the doubles lose whole units, so the source's real-fan count can differ from `RealFans` and its `realFans + botPlays` need not equal the streams; the model's identities hold for the exact figures only. The projection has no ties (`ProjectionHasNoTie`). The one rounding where double arithmetic visibly departs from exact arithmetic is the printed ROI, below.
- DisplayedRoi: rounds the exact ROI, halves up. The source rounds the double `((projected - realFans) / spend) * 100`, which can fall just below an exact half. For (320, 1238, pop) the exact ROI is 102.5 (`HalfPercentScenario`), but the double is 102.49999999999999, so the source prints 102% where the model gives 103. The model therefore does not promise the source's printed figure when the exact ROI ends in .5.
- Number formatting (`toFixed`, `toLocaleString`) is not modelled.
- React-hook-form's string-to-number coercion of watched values is not modelled. Inputs are whole numbers, which the number fields' default step enforces at submission. Values typed after the first submission are recalculated live without that check, and are not modelled.
- A non-finite division (`Infinity` or `NaN`) is modelled as `None` in `CostPerFan`. The source would display it.
- Inherited object keys such as `toString` are not modelled. The rate lookup is an object-literal index, so such a key would return a function, not the fallback. The model treats the table as a plain map. The genre select never produces such a key.
- The browser's own handling of the email input is not modelled: whitespace trimming, native email validation, and UTF-16 code units against Dafny's Unicode characters. Characters outside ASCII fail every class in both readings, so acceptance of the pattern itself is unaffected.
- React-hook-form's brief submitting state during validation is not modelled. A failed validation leaves the model's signup state as it was, apart from the message and the record of the attempt.
- Re-validation on edit is modelled for the email field only. The calculator's inline messages are modelled at submission (`ValidateForm`); their live update on later edits is not.

=== FILE: accordion.dfy ===
/** The FAQ accordion: a single optional index says which item is open, and
    pressing an item's header toggles it. Because the state is one index, at
    most one item can be open at a time. */
module Accordion {
  import opened Wrappers

  /** The index of the open item, or `None` when all items are closed. */
  type OpenIndex = Option<nat>

  /** The first item starts open. */
  const Initial: OpenIndex := Some(0)

  /** Whether item `k` is drawn open. */
  predicate IsOpen(open: OpenIndex, k: nat)
  {
    open == Some(k)
  }

  /** Pressing item `i`'s header: closes it when it is the open one, and
      otherwise opens it, closing whatever was open before. */
  function Toggle(open: OpenIndex, i: nat): (open': OpenIndex)
    ensures IsOpen(open', i) <==> !IsOpen(open, i)
    ensures forall k: nat :: k != i ==> !IsOpen(open', k)
  {
    if open == Some(i) then None else Some(i)
  }

  /** The items among the first `count` that are drawn open. */
  function OpenItems(open: OpenIndex, count: nat): (items: set<nat>)
    ensures |items| <= 1
    ensures open.Some? && open.value < count ==> items == {open.value}
    ensures open.None? || open.value >= count ==> items == {}
  {
    var items := set k: nat | k < count && IsOpen(open, k);
    if open.Some? && open.value < count then
      assert items == {open.value};
      items
    else
      assert items == {};
      items
  }

  /** The page loads with the first item open and every other one closed. */
  lemma InitialFirstOpen(count: nat)
    requires count > 0
    ensures IsOpen(Initial, 0)
    ensures OpenItems(Initial, count) == {0}
  {
  }

  /** At most one item is open, whatever the state. */
  lemma AtMostOneOpen(open: OpenIndex, j: nat, k: nat)
    requires IsOpen(open, j) && IsOpen(open, k)
    ensures j == k
  {
  }

  /** Pressing the same header twice restores the state when that item was the
      open one or nothing was open. */
  lemma ToggleTwiceRestores(open: OpenIndex, i: nat)
    requires open == None || open == Some(i)
    ensures Toggle(Toggle(open, i), i) == open
  {
  }

  /** ... but not when another item was open: that item stays closed. */
  lemma ToggleTwiceClosesOther(j: nat, i: nat)
    requires j != i
    ensures Toggle(Toggle(Some(j), i), i) == None
  {
  }

  /** The state after a sequence of header presses. */
  function Run(open: OpenIndex, presses: seq<nat>): OpenIndex
    decreases |presses|
  {
    if presses == [] then open else Run(Toggle(open, presses[0]), presses[1..])
  }

  /** After any non-empty sequence of presses, the open item (if any) is the
      one pressed last. */
  lemma {:induction false} OpenItemWasPressedLast(open: OpenIndex, presses: seq<nat>)
    requires |presses| > 0
    ensures Run(open, presses).Some? ==> Run(open, presses) == Some(presses[|presses| - 1])
    decreases |presses|
  {
    if |presses| > 1 {
      OpenItemWasPressedLast(Toggle(open, presses[0]), presses[1..]);
      assert presses[1..][|presses[1..]| - 1] == presses[|presses| - 1];
    }
  }

  /** Pressing only headers of existing items keeps the open index in range,
      provided it started in range or closed. */
  lemma {:induction false} RunKeepsIndexInRange(open: OpenIndex, presses: seq<nat>, count: nat)
    requires open.None? || open.value < count
    requires forall k :: 0 <= k < |presses| ==> presses[k] < count
    ensures Run(open, presses).None? || Run(open, presses).value < count
    decreases |presses|
  {
    if presses != [] {
      RunKeepsIndexInRange(Toggle(open, presses[0]), presses[1..], count);
    }
  }
}

=== FILE: cta_section.dfy ===
/** The email signup at the foot of the page: the field's two validation rules
    (required, then the case-insensitive pattern
    `^[A-Z0-9._%+-]+@[A-Z0-9.-]+\.[A-Z]{2,}$`), each with its own message, and
    the success flag that replaces the form by a confirmation once the simulated
    submission completes.

    The pattern is stated twice: `MatchesPattern` says what the regular
    expression says, as a split of the string that exists; `IsValidEmail`
    computes the split, at the `@` and at the last `.`. `AcceptIffPattern`
    shows they agree on every string. */
module CtaSection {
  import opened Wrappers

  const RequiredMessage: string := "Email is required"
  const PatternMessage: string := "Invalid email address"

  predicate IsUpper(c: char) { 'A' <= c <= 'Z' }
  predicate IsLower(c: char) { 'a' <= c <= 'z' }
  predicate IsDigit(c: char) { '0' <= c <= '9' }

  /** How the `i` flag compares characters: an ASCII letter by its upper-case
      form, every other character as itself. */
  function Canonical(c: char): (u: char)
    ensures !IsLower(u)
    ensures IsUpper(u) <==> IsUpper(c) || IsLower(c)
    ensures !IsUpper(c) && !IsLower(c) ==> u == c
    ensures IsUpper(c) ==> u == c
    ensures IsLower(c) ==> u as int == c as int - 32
  {
    if IsLower(c) then (c as int - 32) as char else c
  }

  /** The ASCII lower-case form of a character. */
  function LowerCase(c: char): (l: char)
    ensures Canonical(l) == Canonical(c)
    ensures !IsUpper(l)
  {
    if IsUpper(c) then (c as int + 32) as char else c
  }

  /** `[A-Z0-9._%+-]` under the `i` flag: the characters of the part before `@`. */
  predicate IsLocalChar(c: char)
  {
    var u := Canonical(c);
    IsUpper(u) || IsDigit(u) || u == '.' || u == '_' || u == '%' || u == '+' || u == '-'
  }

  /** `[A-Z0-9.-]` under the `i` flag: the characters of the domain. */
  predicate IsDomainChar(c: char)
  {
    var u := Canonical(c);
    IsUpper(u) || IsDigit(u) || u == '.' || u == '-'
  }

  /** `[A-Z]` under the `i` flag: the characters of the top-level domain. */
  predicate IsTldChar(c: char)
  {
    IsUpper(Canonical(c))
  }

  predicate AllLocal(t: string) { forall i :: 0 <= i < |t| ==> IsLocalChar(t[i]) }
  predicate AllDomain(t: string) { forall i :: 0 <= i < |t| ==> IsDomainChar(t[i]) }
  predicate AllTld(t: string) { forall i :: 0 <= i < |t| ==> IsTldChar(t[i]) }

  /** `s` is `L@D.T` with the `@` at `at` and the `.` before `T` at `dot`: `L`
      and `D` non-empty, `T` at least two letters, each over its class. */
  predicate SplitAt(s: string, at: int, dot: int)
  {
    && 0 < at && at + 1 < dot && dot + 2 < |s|
    && s[at] == '@' && s[dot] == '.'
    && AllLocal(s[..at])
    && AllDomain(s[at + 1..dot])
    && AllTld(s[dot + 1..])
  }

  /** The regular expression, anchored at both ends: some split of `s` fits. */
  ghost predicate MatchesPattern(s: string): (m: bool)
    ensures m ==> |s| >= 6 && '@' in s && '.' in s
  {
    exists at, dot :: SplitAt(s, at, dot)
  }

  /** Position of the first occurrence of `c`. */
  function IndexOf(s: string, c: char): (r: Option<nat>)
    ensures r.Some? ==> r.value < |s| && s[r.value] == c && c !in s[..r.value]
    ensures r.None? ==> c !in s
    decreases |s|
  {
    if s == [] then None
    else if s[0] == c then Some(0)
    else match IndexOf(s[1..], c)
      case None => None
      case Some(k) =>
        assert s[..k + 1] == [s[0]] + s[1..][..k];
        Some(k + 1)
  }

  /** Position of the last occurrence of `c`. */
  function LastIndexOf(s: string, c: char): (r: Option<nat>)
    ensures r.Some? ==> r.value < |s| && s[r.value] == c && c !in s[r.value + 1..]
    ensures r.None? ==> c !in s
    decreases |s|
  {
    if s == [] then None
    else if s[|s| - 1] == c then Some(|s| - 1)
    else match LastIndexOf(s[..|s| - 1], c)
      case None =>
        assert s == s[..|s| - 1] + [s[|s| - 1]];
        None
      case Some(k) =>
        assert s[k + 1..] == s[..|s| - 1][k + 1..] + [s[|s| - 1]];
        Some(k)
  }

  /** The pattern test as computed: split at the first `@` and the last `.`.
      An accepted address is at least `a@b.cd` long, starts with a character of
      the part before `@` and ends in a letter. */
  function IsValidEmail(s: string): (ok: bool)
    ensures ok ==> |s| >= 6 && '@' in s && IsLocalChar(s[0]) && IsTldChar(s[|s| - 1])
  {
    match IndexOf(s, '@')
    case None => false
    case Some(at) =>
      match LastIndexOf(s, '.')
      case None => false
      case Some(dot) => SplitAt(s, at, dot)
  }

  /** Any split that fits is the one at the first `@` and the last `.`: no
      class before the `@` admits `@`, and the top-level domain has no `.`. */
  lemma SplitIsDetermined(s: string, at: int, dot: int)
    requires SplitAt(s, at, dot)
    ensures IndexOf(s, '@') == Some(at)
    ensures LastIndexOf(s, '.') == Some(dot)
  {
    assert !IsLocalChar('@') && !IsTldChar('.');
  }

  /** The computed test accepts exactly the strings the pattern matches. */
  lemma AcceptIffPattern(s: string)
    ensures IsValidEmail(s) <==> MatchesPattern(s)
  {
    if MatchesPattern(s) {
      var at, dot :| SplitAt(s, at, dot);
      SplitIsDetermined(s, at, dot);
    }
  }

  /** Only one way to split an accepted string. */
  lemma SplitIsUnique(s: string, at1: int, dot1: int, at2: int, dot2: int)
    requires SplitAt(s, at1, dot1) && SplitAt(s, at2, dot2)
    ensures at1 == at2 && dot1 == dot2
  {
    SplitIsDetermined(s, at1, dot1);
    SplitIsDetermined(s, at2, dot2);
  }

  /** Positions of `@` in `s`. */
  function AtSigns(s: string): set<int>
  {
    set i | 0 <= i < |s| && s[i] == '@'
  }

  /** An accepted address has exactly one `@`: none of the three classes
      admits it. */
  lemma AcceptedHasOneAt(s: string)
    requires IsValidEmail(s)
    ensures AtSigns(s) == {IndexOf(s, '@').value}
    ensures |AtSigns(s)| == 1
  {
    var at := IndexOf(s, '@').value;
    assert !IsLocalChar('@') && !IsDomainChar('@') && !IsTldChar('@');
    assert AtSigns(s) == {at};
  }

  /** The top-level domain of an accepted address is the text after its last
      `.`, and is at least two letters. */
  lemma AcceptedTldFollowsLastDot(s: string)
    requires IsValidEmail(s)
    ensures var dot := LastIndexOf(s, '.').value;
            '.' !in s[dot + 1..] && |s[dot + 1..]| >= 2 && AllTld(s[dot + 1..])
  {
  }

  /** Two strings that differ only in the case of ASCII letters. */
  predicate SameUpToCase(s: string, t: string)
  {
    |s| == |t| && forall i :: 0 <= i < |s| ==> Canonical(s[i]) == Canonical(t[i])
  }

  lemma SliceUpToCase(s: string, t: string, i: int, j: int)
    requires SameUpToCase(s, t) && 0 <= i <= j <= |s|
    ensures SameUpToCase(s[i..j], t[i..j])
  {
  }

  /** The three classes compare characters by their canonical form only. */
  lemma ClassesUpToCase(x: string, y: string)
    requires SameUpToCase(x, y)
    ensures AllLocal(x) ==> AllLocal(y)
    ensures AllDomain(x) ==> AllDomain(y)
    ensures AllTld(x) ==> AllTld(y)
  {
  }

  lemma SplitUpToCase(s: string, t: string, at: int, dot: int)
    requires SameUpToCase(s, t)
    requires SplitAt(s, at, dot)
    ensures SplitAt(t, at, dot)
  {
    assert Canonical(t[at]) == '@' && Canonical(t[dot]) == '.';
    SliceUpToCase(s, t, 0, at);
    assert s[..at] == s[0..at] && t[..at] == t[0..at];
    ClassesUpToCase(s[..at], t[..at]);
    SliceUpToCase(s, t, at + 1, dot);
    ClassesUpToCase(s[at + 1..dot], t[at + 1..dot]);
    SliceUpToCase(s, t, dot + 1, |s|);
    assert s[dot + 1..] == s[dot + 1..|s|] && t[dot + 1..] == t[dot + 1..|t|];
    ClassesUpToCase(s[dot + 1..], t[dot + 1..]);
  }

  /** The `i` flag: changing the case of ASCII letters never changes the verdict. */
  lemma CaseInsensitive(s: string, t: string)
    requires SameUpToCase(s, t)
    ensures IsValidEmail(s) <==> IsValidEmail(t)
  {
    AcceptIffPattern(s);
    AcceptIffPattern(t);
    if MatchesPattern(s) {
      var at, dot :| SplitAt(s, at, dot);
      SplitUpToCase(s, t, at, dot);
    }
    if MatchesPattern(t) {
      var at, dot :| SplitAt(t, at, dot);
      SplitUpToCase(t, s, at, dot);
    }
  }

  function UpperCaseString(s: string): (u: string)
    ensures SameUpToCase(s, u)
    ensures forall i :: 0 <= i < |u| ==> !IsLower(u[i])
  {
    seq(|s|, i requires 0 <= i < |s| => Canonical(s[i]))
  }

  function LowerCaseString(s: string): (l: string)
    ensures SameUpToCase(s, l)
    ensures forall i :: 0 <= i < |l| ==> !IsUpper(l[i])
  {
    seq(|s|, i requires 0 <= i < |s| => LowerCase(s[i]))
  }

  /** Upper- and lower-casing an address keeps it accepted or rejected. */
  lemma CaseChangesKeepVerdict(s: string)
    ensures IsValidEmail(UpperCaseString(s)) <==> IsValidEmail(s)
    ensures IsValidEmail(LowerCaseString(s)) <==> IsValidEmail(s)
  {
    CaseInsensitive(s, UpperCaseString(s));
    CaseInsensitive(s, LowerCaseString(s));
  }

  /** The field's rules in order: required first, then the pattern. */
  function ValidateEmail(s: string): (r: Result<string, string>)
    ensures s == "" ==> r == Failure(RequiredMessage)
    ensures s != "" && !MatchesPattern(s) ==> r == Failure(PatternMessage)
    ensures r.Success? <==> MatchesPattern(s)
    ensures r.Success? ==> r.value == s
  {
    AcceptIffPattern(s);
    if s == "" then Failure(RequiredMessage)
    else if IsValidEmail(s) then Success(s)
    else Failure(PatternMessage)
  }

  /** Two sample addresses: one the pattern takes, one whose top-level domain
      is too short. */
  lemma Samples()
    ensures ValidateEmail("fan@band.io") == Success("fan@band.io")
    ensures ValidateEmail("fan@band.i") == Failure(PatternMessage)
  {
    assert SplitAt("fan@band.io", 3, 8);
    assert IndexOf("fan@band.i", '@') == Some(3);
    assert LastIndexOf("fan@band.i", '.') == Some(8);
    AcceptIffPattern("fan@band.i");
  }

  /** The signup's state: a submission in flight, the success flag, whether a
      submit has already been attempted (from then on every edit re-validates
      the field), and the message shown under the field. */
  datatype Signup = Signup(isSubmitting: bool, isSuccess: bool, submitted: bool, error: Option<string>)

  const InitialSignup: Signup := Signup(false, false, false, None)

  /** The form is drawn until the submission has succeeded; then the
      confirmation replaces it. */
  predicate FormShown(st: Signup)
  {
    !st.isSuccess
  }

  /** The message the field's rules give for `email`, or none when it passes. */
  function FieldMessage(email: string): (msg: Option<string>)
    ensures msg.None? <==> MatchesPattern(email)
    ensures email == "" ==> msg == Some(RequiredMessage)
    ensures email != "" && !MatchesPattern(email) ==> msg == Some(PatternMessage)
  {
    match ValidateEmail(email)
    case Failure(m) => Some(m)
    case Success(_) => None
  }

  /** A submit with the field's text, an edit of the field, or the simulated
      delay running out. */
  datatype SignupEvent = SubmitEmail(email: string) | EditEmail(email: string) | SubmissionResolved

  /** A submit is possible only while the form is drawn and its button is
      enabled; an invalid address sets the message, a valid one clears it and
      starts the delay, whose end sets the success flag. Edits are validated
      only once a submit has been attempted. */
  function SignupStep(st: Signup, e: SignupEvent): (st': Signup)
    ensures st.isSuccess ==> st'.isSuccess
    ensures st'.isSuccess && !st.isSuccess ==> e.SubmissionResolved? && st.isSubmitting
    ensures st'.isSubmitting && !st.isSubmitting ==> e.SubmitEmail? && MatchesPattern(e.email)
    ensures e.SubmitEmail? && !st.isSubmitting && !st.isSuccess ==>
              (st'.isSubmitting <==> MatchesPattern(e.email))
    ensures e.SubmitEmail? && !st.isSubmitting && !st.isSuccess && !MatchesPattern(e.email) ==>
              st'.submitted && st'.error == Some(ValidateEmail(e.email).error)
    ensures e.SubmissionResolved? && st.isSubmitting ==> st'.isSuccess && !st'.isSubmitting
    ensures st.submitted ==> st'.submitted
    ensures e.EditEmail? ==> st'.isSubmitting == st.isSubmitting && st'.isSuccess == st.isSuccess
    ensures e.EditEmail? && !st.submitted ==> st' == st
    ensures e.EditEmail? && st.submitted && !st.isSuccess ==> st'.error == FieldMessage(e.email)
    ensures e.SubmitEmail? && !st.isSubmitting && !st.isSuccess && MatchesPattern(e.email) ==> st'.error.None?
    ensures e.SubmitEmail? && (st.isSubmitting || st.isSuccess) ==> st' == st
    ensures e.SubmissionResolved? && !st.isSubmitting ==> st' == st
    ensures st'.error.Some? ==> st'.error.value == RequiredMessage || st'.error.value == PatternMessage || st'.error == st.error
  {
    match e
    case SubmitEmail(email) =>
      if st.isSuccess || st.isSubmitting then st
      else (match ValidateEmail(email)
        case Failure(msg) => st.(submitted := true, error := Some(msg))
        case Success(_) => st.(isSubmitting := true, error := None))
    case EditEmail(email) =>
      if st.isSuccess || !st.submitted then st else st.(error := FieldMessage(email))
    case SubmissionResolved =>
      if st.isSubmitting then st.(isSubmitting := false, isSuccess := true) else st
  }

  function RunSignup(st: Signup, es: seq<SignupEvent>): Signup
    decreases |es|
  {
    if es == [] then st else RunSignup(SignupStep(st, es[0]), es[1..])
  }

  /** Before any event the form is drawn with no message, nothing is pending,
      and edits are not yet validated. */
  lemma InitialSignupState()
    ensures FormShown(InitialSignup) && !InitialSignup.isSubmitting
    ensures InitialSignup.error.None? && !InitialSignup.submitted
  {
  }

  /** A matching address, once the delay has run out, replaces the form by
      the confirmation. */
  lemma ValidSubmitSucceeds(email: string)
    requires MatchesPattern(email)
    ensures RunSignup(InitialSignup, [SubmitEmail(email), SubmissionResolved]).isSuccess
    ensures !FormShown(RunSignup(InitialSignup, [SubmitEmail(email), SubmissionResolved]))
  {
    var st1 := SignupStep(InitialSignup, SubmitEmail(email));
    assert st1.isSubmitting;
    assert RunSignup(InitialSignup, [SubmitEmail(email), SubmissionResolved]) == RunSignup(st1, [SubmissionResolved]);
  }

  /** After a rejected submit, clearing the field shows the required message
      without another submit. */
  lemma ClearingAfterRejectedSubmit(email: string)
    requires !MatchesPattern(email)
    ensures RunSignup(InitialSignup, [SubmitEmail(email), EditEmail("")]).error == Some(RequiredMessage)
  {
    var st1 := SignupStep(InitialSignup, SubmitEmail(email));
    assert st1.submitted && !st1.isSuccess;
    assert RunSignup(InitialSignup, [SubmitEmail(email), EditEmail("")]) == RunSignup(st1, [EditEmail("")]);
  }

  /** Once a submit has been attempted, every edit re-validates: after any
      non-empty run of edits the message is the one the last text gives. */
  lemma {:induction false} EditsRevalidate(st: Signup, es: seq<SignupEvent>)
    requires st.submitted && !st.isSuccess
    requires |es| > 0
    requires forall k :: 0 <= k < |es| ==> es[k].EditEmail?
    ensures RunSignup(st, es).submitted
    ensures RunSignup(st, es).error == FieldMessage(es[|es| - 1].email)
    decreases |es|
  {
    var st1 := SignupStep(st, es[0]);
    if |es| > 1 {
      EditsRevalidate(st1, es[1..]);
      assert es[1..][|es[1..]| - 1] == es[|es| - 1];
    }
  }

  /** A rejected submit followed by any edits shows the message for the last
      text typed, without another submit. */
  lemma RejectedSubmitThenEdits(email: string, es: seq<SignupEvent>)
    requires !MatchesPattern(email)
    requires |es| > 0
    requires forall k :: 0 <= k < |es| ==> es[k].EditEmail?
    ensures RunSignup(InitialSignup, [SubmitEmail(email)] + es).error == FieldMessage(es[|es| - 1].email)
  {
    var st1 := SignupStep(InitialSignup, SubmitEmail(email));
    assert ([SubmitEmail(email)] + es)[1..] == es;
    EditsRevalidate(st1, es);
  }

  /** Once set, the success flag stays set, so the form never comes back. */
  lemma {:induction false} SuccessPersists(st: Signup, es: seq<SignupEvent>)
    requires st.isSuccess
    ensures RunSignup(st, es).isSuccess
    ensures !FormShown(RunSignup(st, es))
    decreases |es|
  {
    if es != [] {
      SuccessPersists(SignupStep(st, es[0]), es[1..]);
    }
  }

  /** Some submitted address matched the pattern. */
  ghost predicate HasValidSubmit(es: seq<SignupEvent>)
  {
    exists k :: 0 <= k < |es| && es[k].SubmitEmail? && MatchesPattern(es[k].email)
  }

  lemma {:induction false} BusyNeedsValidSubmit(st: Signup, es: seq<SignupEvent>)
    requires !st.isSubmitting && !st.isSuccess
    ensures RunSignup(st, es).isSubmitting || RunSignup(st, es).isSuccess ==> HasValidSubmit(es)
    decreases |es|
  {
    if es != [] {
      var st1 := SignupStep(st, es[0]);
      if st1.isSubmitting || st1.isSuccess {
        assert es[0].SubmitEmail? && MatchesPattern(es[0].email);
      } else {
        BusyNeedsValidSubmit(st1, es[1..]);
        if HasValidSubmit(es[1..]) {
          var k :| 0 <= k < |es[1..]| && es[1..][k].SubmitEmail? && MatchesPattern(es[1..][k].email);
          assert es[k + 1] == es[1..][k];
        }
      }
    }
  }

  /** The flag is set only after an address that matches the pattern was
      submitted. */
  lemma SuccessNeedsValidSubmit(es: seq<SignupEvent>)
    ensures RunSignup(InitialSignup, es).isSuccess ==> HasValidSubmit(es)
  {
    BusyNeedsValidSubmit(InitialSignup, es);
  }
}

=== FILE: roi_calculator.dfy ===
/** The ROI calculator section: a genre rate table, the split of placement
    streams into real fans and bot plays, the 3.2x projection of the product's
    own strategy, savings against the fixed plan fee, the guarded ROI
    percentage, the derived cost-per-fan and progress-bar displays, the form's
    minimum bounds, and the two view flags the submit button drives.

    Amounts and stream counts are whole numbers; JavaScript's `Math.round` is
    modelled exactly on reals (the nearest integer, halves rounded up). */
module RoiCalculator {
  import opened Wrappers

  /** Monthly cost of the Growth plan, the product's side of the comparison. */
  const PlatformFee: int := 299

  /** Rate used for any genre without an entry in the table. */
  const FallbackRate: int := 15

  /** Minimum bounds the form enforces before it accepts a submission. */
  const MinSpend: int := 100
  const MinStreams: int := 1000

  /** Percentage of placement streams assumed to come from real fans, per genre. */
  const RateTable: map<string, int> :=
    map["pop" := 12, "hip-hop" := 14, "electronic" := 16, "rock" := 18, "indie" := 22, "other" := 15]

  /** The genres the form's select offers. */
  datatype Genre = Pop | HipHop | Electronic | Rock | Indie | Other

  /** The `value` attribute of the select option for a genre. */
  function OptionValue(g: Genre): string
  {
    match g
    case Pop => "pop"
    case HipHop => "hip-hop"
    case Electronic => "electronic"
    case Rock => "rock"
    case Indie => "indie"
    case Other => "other"
  }

  /** Reads a select value back into a genre; `None` for any other string. */
  function ParseGenre(s: string): (g: Option<Genre>)
    ensures g.Some? ==> OptionValue(g.value) == s
  {
    if s == "pop" then Some(Pop)
    else if s == "hip-hop" then Some(HipHop)
    else if s == "electronic" then Some(Electronic)
    else if s == "rock" then Some(Rock)
    else if s == "indie" then Some(Indie)
    else if s == "other" then Some(Other)
    else None
  }

  /** Every option value reads back as the genre it was rendered for. */
  lemma ParseOptionValue(g: Genre)
    ensures ParseGenre(OptionValue(g)) == Some(g)
  {
  }

  /** The table has an entry for exactly the option values, so the fallback is
      reached only for strings the select never produces. */
  lemma TableKeysAreOptionValues(s: string)
    ensures s in RateTable <==> ParseGenre(s).Some?
  {
  }

  /** The genre's real-fan percentage; a missing (or zero, as `||` would treat
      it) entry falls back to 15. */
  function RealFanPercentage(genre: string): (rate: int)
    ensures genre == "pop" ==> rate == 12
    ensures genre == "hip-hop" ==> rate == 14
    ensures genre == "electronic" ==> rate == 16
    ensures genre == "rock" ==> rate == 18
    ensures genre == "indie" ==> rate == 22
    ensures genre == "other" ==> rate == 15
    ensures ParseGenre(genre).None? ==> rate == FallbackRate
    ensures 12 <= rate <= 22
  {
    if genre in RateTable && RateTable[genre] != 0 then RateTable[genre] else FallbackRate
  }

  /** `Math.round` on an exact real: the nearest integer, halves rounded up. */
  function Round(x: real): (n: int)
    ensures n as real - 0.5 <= x < n as real + 0.5
  {
    (x + 0.5).Floor
  }

  /** Only one integer lies in the half-open window `Round` promises. */
  lemma RoundUnique(x: real, n: int)
    requires n as real - 0.5 <= x < n as real + 0.5
    ensures Round(x) == n
  {
  }

  /** Rounding a whole number of hundredths is integer arithmetic. */
  lemma RoundHundredths(a: int)
    ensures Round(a as real / 100.0) == (a + 50) / 100
  {
    var q := (a + 50) / 100;
    assert q * 100 <= a + 50 < q * 100 + 100;
    RoundUnique(a as real / 100.0, q);
  }

  /** Rounding a whole number of tenths is integer arithmetic. */
  lemma RoundTenths(a: int)
    ensures Round(a as real / 10.0) == (a + 5) / 10
  {
    var q := (a + 5) / 10;
    assert q * 10 <= a + 5 < q * 10 + 10;
    RoundUnique(a as real / 10.0, q);
  }

  lemma CastProduct(a: int, b: int)
    ensures (a * b) as real == a as real * b as real
  {
  }

  /** The three numbers a visitor enters. */
  datatype CalculatorInput = CalculatorInput(currentSpend: int, monthlyStreams: int, genre: string)

  /** The five figures the effect stores in the `results` state. */
  datatype CalculatorResult = CalculatorResult(
    realFans: int,
    botPlays: int,
    organicPerformance: int,
    savings: int,
    roi: real)

  /** Real fans among the placement streams: the genre's share, rounded. */
  function RealFans(monthlyStreams: int, genre: string): (fans: int)
    ensures fans == (monthlyStreams * RealFanPercentage(genre) + 50) / 100
    ensures monthlyStreams >= 0 ==> 0 <= fans <= monthlyStreams
    ensures monthlyStreams >= MinStreams ==> fans >= 120
  {
    var rate := RealFanPercentage(genre);
    CastProduct(monthlyStreams, rate);
    assert monthlyStreams as real * (rate as real / 100.0) == (monthlyStreams * rate) as real / 100.0;
    RoundHundredths(monthlyStreams * rate);
    assert monthlyStreams >= 0 ==> monthlyStreams * rate <= 22 * monthlyStreams;
    assert monthlyStreams >= MinStreams ==> monthlyStreams * rate >= 12 * MinStreams;
    Round(monthlyStreams as real * (rate as real / 100.0))
  }

  /** Fans the product's own strategy is projected to reach: 3.2 times the
      real fans, rounded. `realFans * 32` is even, so the product never ends in
      exactly one half and no tie-breaking rule is involved. */
  function Projected(realFans: int): (projected: int)
    ensures projected == (realFans * 32 + 5) / 10
    ensures realFans >= 0 ==> projected >= realFans
    ensures realFans > 0 ==> projected > realFans
    ensures realFans >= 0 ==> projected - realFans <= 3 * realFans
  {
    assert realFans as real * 3.2 == (realFans * 32) as real / 10.0;
    RoundTenths(realFans * 32);
    Round(realFans as real * 3.2)
  }

  /** `realFans * 3.2` is never an exact half, so any rounding of halves agrees. */
  lemma ProjectionHasNoTie(realFans: int, k: int)
    ensures realFans as real * 3.2 != k as real + 0.5
  {
  }

  /** `roi` percent of `spend` dollars is `gain` fans: the ratio the ROI
      figure expresses, stated without a division. */
  predicate IsPercentGain(roi: real, spend: int, gain: int)
  {
    roi * spend as real == gain as real * 100.0
  }

  /** The ROI percentage: the projected gain in fans per dollar of current
      spend, times 100, shown only when switching saves money. */
  function Roi(currentSpend: int, realFans: int, projected: int): (roi: real)
    ensures currentSpend <= PlatformFee ==> roi == 0.0
    ensures currentSpend > PlatformFee ==> IsPercentGain(roi, currentSpend, projected - realFans)
    ensures projected >= realFans ==> roi >= 0.0
    ensures projected >= realFans ==> (roi > 0.0 <==> currentSpend > PlatformFee && projected > realFans)
  {
    var savings := currentSpend - PlatformFee;
    if savings > 0 then ((projected - realFans) as real / currentSpend as real) * 100.0 else 0.0
  }

  /** The recalculation the effect runs whenever an input changes. */
  function Recalculate(input: CalculatorInput): (res: CalculatorResult)
    ensures res.realFans + res.botPlays == input.monthlyStreams
    ensures res.realFans == (input.monthlyStreams * RealFanPercentage(input.genre) + 50) / 100
    ensures res.organicPerformance == (res.realFans * 32 + 5) / 10
    ensures res.savings == input.currentSpend - PlatformFee
    ensures input.monthlyStreams >= 0 ==> 0 <= res.realFans <= input.monthlyStreams
    ensures input.monthlyStreams >= 0 ==> res.organicPerformance >= res.realFans
    ensures res.realFans > 0 ==> res.organicPerformance > res.realFans
    ensures input.currentSpend <= PlatformFee ==> res.roi == 0.0
    ensures input.currentSpend > PlatformFee ==>
              IsPercentGain(res.roi, input.currentSpend, res.organicPerformance - res.realFans)
    ensures input.monthlyStreams >= 0 ==> res.roi >= 0.0
    ensures input.monthlyStreams >= 0 ==> (res.roi > 0.0 <==> input.currentSpend > PlatformFee && res.realFans > 0)
  {
    var realFans := RealFans(input.monthlyStreams, input.genre);
    var botPlays := input.monthlyStreams - realFans;
    var projected := Projected(realFans);
    var savings := input.currentSpend - PlatformFee;
    CalculatorResult(realFans, botPlays, projected, savings, Roi(input.currentSpend, realFans, projected))
  }

  /** A cost divided over a number of fans; `None` where the source's division
      by zero would display a non-finite value. */
  function CostPerFan(cost: int, fans: int): (c: Option<real>)
    ensures c.Some? <==> fans != 0
    ensures c.Some? ==> c.value * fans as real == cost as real
  {
    if fans == 0 then None else Some(cost as real / fans as real)
  }

  /** "Cost Per Real Fan" of the current playlist strategy: the current spend
      over the real fans. */
  function CurrentCostPerFan(input: CalculatorInput, res: CalculatorResult): (c: Option<real>)
    ensures c.Some? <==> res.realFans != 0
    ensures c.Some? ==> c.value * res.realFans as real == input.currentSpend as real
  {
    CostPerFan(input.currentSpend, res.realFans)
  }

  /** "Cost Per Real Fan" of the product's strategy: the plan fee over the
      projected fans. */
  function ProjectedCostPerFan(res: CalculatorResult): (c: Option<real>)
    ensures c.Some? <==> res.organicPerformance != 0
    ensures c.Some? ==> c.value * res.organicPerformance as real == PlatformFee as real
  {
    CostPerFan(PlatformFee, res.organicPerformance)
  }

  /** Width of the ROI progress bar, in percent. */
  function ProgressWidth(roi: real): (w: real)
    ensures roi < 100.0 ==> w == roi
    ensures roi >= 100.0 ==> w == 100.0
    ensures roi >= 0.0 ==> w >= 0.0
  {
    if roi < 100.0 then roi else 100.0
  }

  /** A larger ROI never draws a shorter bar, and every ROI from 100 on draws
      the full bar. */
  lemma ProgressWidthMonotone(roi1: real, roi2: real)
    requires roi1 <= roi2
    ensures ProgressWidth(roi1) <= ProgressWidth(roi2)
    ensures roi1 >= 100.0 ==> ProgressWidth(roi1) == ProgressWidth(roi2)
  {
  }

  /** The ROI figure printed in the results panel: the ROI to the nearest
      whole percent, halves rounded up. */
  function DisplayedRoi(res: CalculatorResult): (shown: int)
    ensures shown as real - 0.5 <= res.roi < shown as real + 0.5
    ensures res.roi >= 0.0 ==> shown >= 0
  {
    Round(res.roi)
  }

  /** The form's default values. */
  const DefaultInput: CalculatorInput := CalculatorInput(500, 10000, "pop")

  /** The results shown for the default values. */
  lemma DefaultScenario()
    ensures Recalculate(DefaultInput) == CalculatorResult(1200, 8800, 3840, 201, 528.0)
    ensures DisplayedRoi(Recalculate(DefaultInput)) == 528
    ensures ProgressWidth(Recalculate(DefaultInput).roi) == 100.0
  {
    var res := Recalculate(DefaultInput);
    assert res.realFans == 1200;
    assert res.organicPerformance == 3840;
    assert res.roi == (2640.0 / 500.0) * 100.0;
    RoundUnique(528.0, 528);
  }

  /** A submission whose ROI is exactly 102.5 percent: the exact figure is
      printed as 103. */
  lemma HalfPercentScenario()
    ensures Recalculate(CalculatorInput(320, 1238, "pop")).roi == 102.5
    ensures DisplayedRoi(Recalculate(CalculatorInput(320, 1238, "pop"))) == 103
  {
    var res := Recalculate(CalculatorInput(320, 1238, "pop"));
    assert res.realFans == 149;
    assert res.organicPerformance == 477;
    assert res.roi == (328.0 / 320.0) * 100.0;
    RoundUnique(102.5, 103);
  }

  /** The smallest indie submission: no savings, so no ROI. */
  lemma SmallIndieScenario()
    ensures Recalculate(CalculatorInput(100, 1000, "indie")) == CalculatorResult(220, 780, 704, -199, 0.0)
  {
  }

  /** Which field a validation message belongs to. */
  datatype Field = CurrentSpendField | MonthlyStreamsField | GenreField

  /** The inline message the form shows under a failing field; the genre
      select has none. */
  function ErrorMessage(f: Field): (msg: Option<string>)
    ensures msg.Some? <==> f != GenreField
    ensures f == CurrentSpendField ==> msg == Some("Please enter a valid amount (minimum $100)")
    ensures f == MonthlyStreamsField ==> msg == Some("Please enter a valid number of streams (minimum 1,000)")
  {
    match f
    case CurrentSpendField => Some("Please enter a valid amount (minimum $100)")
    case MonthlyStreamsField => Some("Please enter a valid number of streams (minimum 1,000)")
    case GenreField => None
  }

  /** A required numeric field with a minimum: an empty field (`None`) fails. */
  predicate MeetsMin(v: Option<int>, min: int)
  {
    v.Some? && v.value >= min
  }

  /** The form's rules: both numbers required and at least their minimum, the
      genre required. On failure, the set of failing fields. */
  function ValidateForm(spend: Option<int>, streams: Option<int>, genre: string): (r: Result<CalculatorInput, set<Field>>)
    ensures r.Success? <==> MeetsMin(spend, MinSpend) && MeetsMin(streams, MinStreams) && genre != ""
    ensures r.Success? ==> r.value == CalculatorInput(spend.value, streams.value, genre)
    ensures r.Failure? ==> r.error != {}
    ensures r.Failure? ==> (CurrentSpendField in r.error <==> !MeetsMin(spend, MinSpend))
    ensures r.Failure? ==> (MonthlyStreamsField in r.error <==> !MeetsMin(streams, MinStreams))
    ensures r.Failure? ==> (GenreField in r.error <==> genre == "")
  {
    var errors :=
      (if MeetsMin(spend, MinSpend) then {} else {CurrentSpendField})
      + (if MeetsMin(streams, MinStreams) then {} else {MonthlyStreamsField})
      + (if genre != "" then {} else {GenreField});
    if errors == {} then Success(CalculatorInput(spend.value, streams.value, genre)) else Failure(errors)
  }

  /** Within the form's bounds there are at least 120 real fans and a positive
      projection, so both cost-per-fan figures are finite. */
  lemma {:induction false} FormBoundsKeepCostsDefined(spend: Option<int>, streams: Option<int>, genre: string)
    requires ValidateForm(spend, streams, genre).Success?
    ensures var input := ValidateForm(spend, streams, genre).value;
            var res := Recalculate(input);
            && res.realFans >= 120
            && res.organicPerformance > res.realFans
            && CurrentCostPerFan(input, res).Some?
            && ProjectedCostPerFan(res).Some?
            && CurrentCostPerFan(input, res).value > 0.0
  {
    var input := ValidateForm(spend, streams, genre).value;
    var res := Recalculate(input);
    assert input.monthlyStreams >= MinStreams;
    assert res.realFans == RealFans(input.monthlyStreams, input.genre);
    var c := CurrentCostPerFan(input, res).value;
    assert c * res.realFans as real == input.currentSpend as real;
    assert input.currentSpend >= MinSpend;
  }

  /** The view flags: the submit button is disabled while `isCalculating`, and
      the results panel replaces the placeholder once `showResults` is set. */
  datatype View = View(isCalculating: bool, showResults: bool)

  const InitialView: View := View(false, false)

  /** What can happen to the view: a submit with the raw field values, or the
      simulated calculation delay running out. */
  datatype ViewEvent =
    | Submit(spend: Option<int>, streams: Option<int>, genre: string)
    | CalculationDone

  /** A submit is ignored while the button is disabled and while the form is
      invalid (the inline messages show instead); a valid one starts the
      delay, whose end reveals the results. */
  function ViewStep(v: View, e: ViewEvent): (v': View)
    ensures v.showResults ==> v'.showResults
    ensures v'.showResults && !v.showResults ==> e.CalculationDone? && v.isCalculating
    ensures v'.isCalculating && !v.isCalculating ==> e.Submit? && ValidateForm(e.spend, e.streams, e.genre).Success?
    ensures e.Submit? && !v.isCalculating ==>
              (v'.isCalculating <==> ValidateForm(e.spend, e.streams, e.genre).Success?)
    ensures e.Submit? ==> v'.showResults == v.showResults
    ensures e.CalculationDone? && v.isCalculating ==> v' == View(false, true)
    ensures e.CalculationDone? && !v.isCalculating ==> v' == v
    ensures e.Submit? && v.isCalculating ==> v' == v
  {
    match e
    case Submit(spend, streams, genre) =>
      if v.isCalculating || ValidateForm(spend, streams, genre).Failure? then v
      else v.(isCalculating := true)
    case CalculationDone =>
      if v.isCalculating then View(false, true) else v
  }

  function RunView(v: View, es: seq<ViewEvent>): View
    decreases |es|
  {
    if es == [] then v else RunView(ViewStep(v, es[0]), es[1..])
  }

  /** A valid submission is among the events. */
  predicate HasValidSubmit(es: seq<ViewEvent>)
  {
    exists k :: 0 <= k < |es| && es[k].Submit? && ValidateForm(es[k].spend, es[k].streams, es[k].genre).Success?
  }

  /** From the initial view, results are revealed only after a valid
      submission, and once revealed they stay revealed. */
  lemma ResultsFollowValidSubmit(es: seq<ViewEvent>)
    ensures RunView(InitialView, es).showResults ==> HasValidSubmit(es)
  {
    RunInvariant(InitialView, es);
  }

  /** The invariant behind `ResultsFollowValidSubmit`: a view that is
      calculating or showing results owes it to a valid submission. */
  lemma {:induction false} RunInvariant(v: View, es: seq<ViewEvent>)
    ensures (RunView(v, es).isCalculating || RunView(v, es).showResults) && !v.isCalculating && !v.showResults
            ==> HasValidSubmit(es)
    decreases |es|
  {
    if es != [] {
      var v1 := ViewStep(v, es[0]);
      RunInvariant(v1, es[1..]);
      if (RunView(v, es).isCalculating || RunView(v, es).showResults) && !v.isCalculating && !v.showResults {
        if v1.isCalculating || v1.showResults {
          assert es[0].Submit? && ValidateForm(es[0].spend, es[0].streams, es[0].genre).Success?;
        } else {
          var k :| 0 <= k < |es[1..]| && es[1..][k].Submit?
                   && ValidateForm(es[1..][k].spend, es[1..][k].streams, es[1..][k].genre).Success?;
          assert es[k + 1] == es[1..][k];
        }
      }
    }
  }

  /** A valid submission followed by the end of the delay reveals the results
      and re-enables the button. */
  lemma ValidSubmitShowsResults(spend: Option<int>, streams: Option<int>, genre: string)
    requires ValidateForm(spend, streams, genre).Success?
    ensures RunView(InitialView, [Submit(spend, streams, genre), CalculationDone]) == View(false, true)
  {
    var v1 := ViewStep(InitialView, Submit(spend, streams, genre));
    assert v1 == View(true, false);
    assert RunView(InitialView, [Submit(spend, streams, genre), CalculationDone]) == RunView(v1, [CalculationDone]);
  }

  /** Once the results panel is shown it never goes back to the placeholder. */
  lemma {:induction false} ResultsStayShown(v: View, es: seq<ViewEvent>)
    requires v.showResults
    ensures RunView(v, es).showResults
    decreases |es|
  {
    if es != [] {
      ResultsStayShown(ViewStep(v, es[0]), es[1..]);
    }
  }
}

=== FILE: testimonials.dfy ===
/** The testimonial carousel: an index into a fixed list of testimonials,
    moved by the next and previous arrows, by the dots under the card and by the
    auto-rotation, together with the direction flag that decides from which
    side the incoming card slides in and to which side the outgoing one leaves. */
module Testimonials {

  /** The parts of a testimonial the carousel's logic depends on. */
  datatype Testimonial = Testimonial(id: nat, name: string, rating: nat)

  /** The list the carousel cycles through, in display order. */
  const Items: seq<Testimonial> := [
    Testimonial(1, "Alex Rivers", 5),
    Testimonial(2, "Maria Sanchez", 5),
    Testimonial(3, "The Nightwalkers", 5)
  ]

  /** Number of testimonials: the modulus of every index update. */
  const Count: nat := |Items|

  lemma CountIsThree()
    ensures Count == 3
  {
  }

  /** The carousel's two pieces of state: the index of the card shown and the
      direction of the last move (1 forward, -1 backward, 0 before any). */
  datatype Carousel = Carousel(active: nat, direction: int)

  const Initial: Carousel := Carousel(0, 0)

  /** A state the carousel can be in: the index names a testimonial and the
      direction is one of the three values the handlers set. */
  predicate Valid(c: Carousel)
  {
    c.active < Count && c.direction in {-1, 0, 1}
  }

  /** The next arrow and the auto-rotation: one card forward, wrapping from the
      last card to the first. */
  function Next(c: Carousel): (c': Carousel)
    ensures c'.direction == 1
    ensures c'.active < Count
    ensures c.active < Count ==> c'.active == (if c.active == Count - 1 then 0 else c.active + 1)
  {
    Carousel((c.active + 1) % Count, 1)
  }

  /** The previous arrow: one card back, wrapping from the first card to the last. */
  function Prev(c: Carousel): (c': Carousel)
    ensures c'.direction == -1
    ensures c'.active < Count
    ensures c.active < Count ==> c'.active == (if c.active == 0 then Count - 1 else c.active - 1)
  {
    Carousel((c.active - 1 + Count) % Count, -1)
  }

  /** A click on dot `i`: jump to card `i`; the slide runs forward exactly when
      `i` lies after the current card, so clicking the current dot counts as a
      backward move. */
  function DotClick(c: Carousel, i: nat): (c': Carousel)
    requires i < Count
    ensures c'.active == i
    ensures c'.direction == 1 <==> i > c.active
    ensures c'.direction == -1 <==> i <= c.active
  {
    Carousel(i, if i > c.active then 1 else -1)
  }

  /** Whatever the visitor or the timer does to the carousel; dots are only
      rendered for existing testimonials. */
  datatype Event = NextClick | PrevClick | Dot(index: nat) | AutoRotate

  predicate Rendered(e: Event)
  {
    e.Dot? ==> e.index < Count
  }

  function Step(c: Carousel, e: Event): (c': Carousel)
    requires Rendered(e)
    ensures Valid(c')
    ensures e.NextClick? || e.AutoRotate? ==> c'.direction == 1 && c'.active == (c.active + 1) % Count
    ensures e.PrevClick? ==> c'.direction == -1 && c'.active == (c.active - 1 + Count) % Count
    ensures e.Dot? ==> c'.active == e.index && (c'.direction == 1 <==> e.index > c.active)
  {
    match e
    case NextClick => Next(c)
    case PrevClick => Prev(c)
    case Dot(i) => DotClick(c, i)
    case AutoRotate => Next(c)
  }

  /** The rotation timer calls the next arrow's handler: it slides forward
      exactly as a click on next does. */
  lemma AutoRotateIsNext(c: Carousel)
    ensures Step(c, AutoRotate) == Step(c, NextClick)
    ensures Step(c, AutoRotate) == Next(c)
  {
  }

  function Run(c: Carousel, es: seq<Event>): Carousel
    requires forall k :: 0 <= k < |es| ==> Rendered(es[k])
    decreases |es|
  {
    if es == [] then c else Run(Step(c, es[0]), es[1..])
  }

  /** Every state reachable from a valid one is valid, so indexing the list
      with `active` never goes out of range. Each handler already lands in a
      valid state (`Step`), so this only carries that fact along the events. */
  lemma {:induction false} RunStaysValid(c: Carousel, es: seq<Event>)
    requires Valid(c)
    requires forall k :: 0 <= k < |es| ==> Rendered(es[k])
    ensures Valid(Run(c, es))
    decreases |es|
  {
    if es != [] {
      RunStaysValid(Step(c, es[0]), es[1..]);
    }
  }

  /** Net number of cards moved forward by arrows and rotation: +1 for next
      and auto-rotation, -1 for previous. */
  function NetMoves(es: seq<Event>): int
    decreases |es|
  {
    if es == [] then 0
    else (match es[0] case PrevClick => -1 case Dot(_) => 0 case _ => 1) + NetMoves(es[1..])
  }

  lemma ModShift(x: int, y: int)
    ensures ((x % Count) + y) % Count == (x + y) % Count
  {
    var q := x / Count;
    assert x == q * Count + x % Count;
    assert (x + y) == q * Count + ((x % Count) + y);
    ModMultiple(q, (x % Count) + y);
  }

  lemma ModMultiple(q: int, z: int)
    ensures (q * Count + z) % Count == z % Count
  {
  }

  /** Without dot clicks, the shown card is the starting one moved by the net
      number of forward moves, modulo the count, whatever their order. */
  lemma {:induction false} RunMovesByNet(c: Carousel, es: seq<Event>)
    requires Valid(c)
    requires forall k :: 0 <= k < |es| ==> !es[k].Dot?
    ensures Run(c, es).active == (c.active + NetMoves(es)) % Count
    decreases |es|
  {
    if es != [] {
      var c1 := Step(c, es[0]);
      RunMovesByNet(c1, es[1..]);
      var d := match es[0] case PrevClick => -1 case Dot(_) => 0 case _ => 1;
      assert c1.active == (c.active + d) % Count;
      ModShift(c.active + d, NetMoves(es[1..]));
    }
  }

  /** The testimonial on the card. */
  function Current(c: Carousel): (t: Testimonial)
    requires Valid(c)
    ensures t in Items
    ensures t.id == c.active + 1
  {
    Items[c.active]
  }

  /** Previous undoes next, and next undoes previous. */
  lemma PrevUndoesNext(c: Carousel)
    requires Valid(c)
    ensures Prev(Next(c)).active == c.active
    ensures Next(Prev(c)).active == c.active
  {
  }

  /** `k` presses of the next arrow from `c`. */
  function Advance(c: Carousel, k: nat): Carousel
    decreases k
  {
    if k == 0 then c else Next(Advance(c, k - 1))
  }

  /** `k` presses of next move the index `k` places forward, modulo the count. */
  lemma {:induction false} AdvanceMovesForward(c: Carousel, k: nat)
    requires Valid(c)
    ensures Advance(c, k).active == (c.active + k) % Count
    decreases k
  {
    if k > 0 {
      AdvanceMovesForward(c, k - 1);
      var a := (c.active + (k - 1)) % Count;
      assert Advance(c, k).active == (a + 1) % Count;
      ModSucc(c.active + (k - 1));
    }
  }

  lemma ModSucc(x: nat)
    ensures (x % Count + 1) % Count == (x + 1) % Count
  {
  }

  /** A full round of next presses brings back the card it started from. */
  lemma FullCycleReturns(c: Carousel)
    requires Valid(c)
    ensures Advance(c, Count).active == c.active
  {
    AdvanceMovesForward(c, Count);
  }

  /** Horizontal offset an incoming card starts from. */
  function EnterX(direction: int): (x: int)
    ensures x == 1000 <==> direction > 0
    ensures x == -1000 <==> direction <= 0
  {
    if direction > 0 then 1000 else -1000
  }

  /** Horizontal offset an outgoing card leaves towards. */
  function ExitX(direction: int): (x: int)
    ensures x == 1000 <==> direction < 0
    ensures x == -1000 <==> direction >= 0
  {
    if direction < 0 then 1000 else -1000
  }

  /** After any move the incoming and outgoing cards travel the same way:
      the incoming one starts on the side opposite to where the outgoing one
      leaves. Before any move both offsets are to the left. */
  lemma SlidesAreOpposite(direction: int)
    ensures direction == 1 || direction == -1 ==> EnterX(direction) == -ExitX(direction)
    ensures direction == 0 ==> EnterX(direction) == ExitX(direction) == -1000
  {
  }

  /** Next brings the new card in from the right; previous from the left. */
  lemma MoveSides(c: Carousel)
    ensures EnterX(Next(c).direction) == 1000 && ExitX(Next(c).direction) == -1000
    ensures EnterX(Prev(c).direction) == -1000 && ExitX(Prev(c).direction) == 1000
  {
  }

  /** Whether dot `i` is drawn as the current one. */
  predicate IsHighlighted(c: Carousel, i: nat)
  {
    i == c.active
  }

  /** The dots drawn highlighted: exactly the one of the card shown. */
  function HighlightedDots(c: Carousel): (dots: set<nat>)
    ensures Valid(c) ==> dots == {c.active}
    ensures c.active >= Count ==> dots == {}
  {
    var dots := set i: nat | i < Count && IsHighlighted(c, i);
    if c.active < Count then
      assert dots == {c.active};
      dots
    else
      assert dots == {};
      dots
  }

  /** Initially the first card shows, no move has happened yet, and exactly
      the first dot is highlighted. */
  lemma InitialState()
    ensures Valid(Initial)
    ensures Current(Initial) == Items[0]
    ensures Initial.direction == 0
    ensures HighlightedDots(Initial) == {0}
  {
  }
}

=== FILE: wrappers.dfy ===
/** Optional values and validation results shared by the component models. */
module Wrappers {

  /** A value that may be absent: `null` in the source's state hooks, or a
      division the source would leave non-finite. */
  datatype Option<+T> = None | Some(value: T)

  /** The outcome of a form validation: the accepted value or what was wrong. */
  datatype Result<+R, +E> = Success(value: R) | Failure(error: E)
}
